=== FILE: README.md ===
# Port scanner core in Dafny

This project is a Dafny model of the deterministic core of two Python TCP port scanners:

- `port_scanner.py` is the threaded scanner. It parses a `-p` port argument, starts one probe thread per port in bounded batches, grabs a banner from each open port, and prints a port-sorted listing labelled with service names.
- `basic_port_scanner.py` is the sequential scanner. It probes ports 1 to 1024 one after the other and prints a progress mark every 100 ports.

The network is not modelled as sockets. It is an oracle value `Network.Net` with three functions:

- `resolve`: `gethostbyname`
- `connect`: the result of `connect_ex`, either an error code or a raised socket exception
- `exchange`: sends the payload and returns the received text, or a failure standing for any exception in `send`/`recv`

Every operation is a pure function of that oracle.

The modules follow the program:

- `Fields`, `Numerals` and `PortSpec`: the `-p` argument, with `str.split`, `int()` on digit strings, and `min`/`max`. `int()` refuses a string whose leading run of digits is longer than CPython's default cap of 4300 digits (leading zeros count), and the model keeps that cap.
- `Whitespace` and `Banner`: `str.strip()`, the probe payload and the displayed banner.
- `Prober`: the per-port outcome rule of both scanners.
- `Services` and `Report`: service labels and the sorted listing.
- `Ports`: `range(lo, hi + 1)`.
- `Dispatcher`: the batched thread loop of `run_scan`.
  - It is a real event trace of `Launch(port)` and `Join(port)` events.
  - `BatchedTrace` defines the schedule independently of the loop: the ports are cut into batches of `max(threads, 1)`, and each batch is started in full and then joined in full.
  - The loop is proved to produce exactly that trace. Separate lemmas prove what the schedule itself guarantees: every port is started and joined once, in order, and the number of probes in flight never exceeds the batch size.
  - Each probe's entry is appended when it is joined.
- `BasicScan`: the sequential scanner's `main`.
- `Equivalence`: the theorems relating the two scanners, plus a worked scenario.

## Model

| member | source | states |
|---|---|---|
| Fields.Split | port_scanner.py:158-161 | `split` on a one-character separator yields one more field than there are separators, and no field contains the separator |
| Fields.JoinSplit | port_scanner.py:158-161 | joining the fields of a split with the separator restores the argument exactly |
| Fields.SplitJoin | port_scanner.py:158-161 | splitting a join of separator-free fields gives back those fields, so split loses nothing |
| Fields.SplitAfterField | port_scanner.py:158 | a separator-free leading field is peeled off as the first field |
| Numerals.ParseShow | port_scanner.py:164 | converting a rendered number gives the number back |
| Numerals.ShowParse | port_scanner.py:164 | a canonical numeral is the rendering of its value, so conversion and rendering are inverse on canonical numerals |
| PortSpec.IntOf | port_scanner.py:164 | `int()` succeeds exactly on a numeral of at most 4300 digits, with its decimal value; a leading digit run over the cap raises the digit-limit error, anything else the invalid-literal error |
| PortSpec.UnpackPair | port_scanner.py:158 | the two-name unpacking succeeds exactly on two convertible fields; the error is `int()`'s error for the first of the first two fields it rejects, then for a rejected third field, and only then "too many values" |
| PortSpec.ToInts | port_scanner.py:161 | the list conversion succeeds exactly when `int()` accepts every field, keeps the order and values, and otherwise reports `int()`'s error for the first field it rejects |
| PortSpec.MinOf | port_scanner.py:162 | `min` is an element of the list and no element is below it |
| PortSpec.MaxOf | port_scanner.py:162 | `max` is an element of the list and no element is above it |
| PortSpec.ParseSpec | port_scanner.py:157-164 | a dash makes the argument a range, which succeeds exactly on two convertible fields; otherwise a comma list gives the smallest and largest listed port, and fails on a field `int()` rejects; otherwise the argument is a single port, with `int()`'s own error |
| PortSpec.MixedSpecFails | port_scanner.py:157-158 | an argument with both `-` and `,` is read as a range and always fails |
| PortSpec.RangeRoundTrip | port_scanner.py:157-158 | `"a-b"` parses to the interval from `a` to `b` when both renderings fit under the digit cap |
| PortSpec.SingleRoundTrip | port_scanner.py:163-164 | `"p"` parses to the one-port interval `p..p` when its rendering fits under the digit cap |
| PortSpec.ListRoundTrip | port_scanner.py:159-162 | a comma list of two or more ports parses to the interval from its least to its greatest port when every rendering fits under the digit cap |
| PortSpec.OverlongPortFails | port_scanner.py:163-164 | a single numeral of more than 4300 digits fails with the digit-limit error, even when its value is a small port such as `000…080` |
| PortSpec.OverlongRangeStartFails | port_scanner.py:157-158 | a range whose first field is a numeral of more than 4300 digits fails with the digit-limit error for that field |
| Whitespace.TrimStart | port_scanner.py:56 | only whitespace is dropped from the front, and what remains does not start with whitespace |
| Whitespace.TrimEnd | port_scanner.py:56 | only whitespace is dropped from the back, and what remains does not end with whitespace |
| Whitespace.Strip | port_scanner.py:56 | the result is a slice of the answer: everything dropped around it is whitespace, and it neither starts nor ends with whitespace |
| Whitespace.StrippedAtUnique | port_scanner.py:56 | there is only one such slice, so stripping is fully determined by that description |
| Whitespace.StripIdempotent | port_scanner.py:56 | stripping twice is stripping once |
| Whitespace.StripUnpadded | port_scanner.py:56 | an answer that neither starts nor ends with whitespace is left as it is |
| Banner.Payload | port_scanner.py:49-53 | the four web ports get an HTTP `GET /` request naming the target and ending in a blank line; every other port gets a bare CRLF |
| Banner.FormatBanner | port_scanner.py:56-57 | the banner is parenthesised, at most 55 characters long, and holds the stripped answer, cut to 50 characters plus `...` when it is longer than 50 |
| Banner.ShownIsPrefixOfAnswer | port_scanner.py:57 | the shown text always starts with the first 50 characters of the stripped answer; it is the whole stripped answer when that fits |
| Banner.ShortAnswerShown | port_scanner.py:56-57 | an unpadded answer of at most 50 characters is shown whole, in parentheses |
| Banner.ShortAnswerBanner | port_scanner.py:45-60 | when the server answers the probe payload with such a short unpadded text, the banner is that text in parentheses |
| Banner.FormatIgnoresSurroundingSpace | port_scanner.py:56-57 | surrounding whitespace in the answer never changes the banner |
| Banner.GrabBanner | port_scanner.py:45-60 | the banner is empty exactly when the exchange raised |
| Banner.ReceivedBanner | port_scanner.py:45-57 | when an answer arrives, the banner is that answer formatted as `Banner.FormatBanner` states |
| Prober.ProbePort | port_scanner.py:18-43 | a probe appends an entry exactly when `connect_ex` returned 0, and the entry is for the probed port |
| Prober.ScanPort | basic_port_scanner.py:7-33 | a port is reported open exactly when `connect_ex` returned 0; any exception reports it closed |
| Prober.ProbersAgree | port_scanner.py:26-33 | the two scanners agree on which ports are open, and an open port's entry carries the banner grabbed on that connection |
| Prober.ExceptionMeansClosed | port_scanner.py:38-43 | a raised socket error, including a resolution error, never yields an open port in either scanner |
| Services.ServiceName | port_scanner.py:114-121 | a port in the table gets its label, and every other port gets `Unknown` |
| Services.LabelIdentifiesPort | port_scanner.py:116-120 | no two ports share a label, so a known label names exactly one port |
| Report.Insert | port_scanner.py:106 | inserting into a port-sorted list keeps it sorted and adds exactly the new entry |
| Report.SortByPort | port_scanner.py:106 | the result is sorted by port and is a permutation of the entries |
| Report.SortKeepsSorted | port_scanner.py:106 | sorting an already port-sorted list changes nothing |
| Report.SortedUnique | port_scanner.py:106 | two port-sorted permutations of the same distinct-port entries are equal |
| Report.MakeListing | port_scanner.py:104-110 | "no open ports" exactly when nothing was appended; otherwise the count is the number of entries and the rows are a port-sorted permutation of the entries, each labelled with its service name |
| Report.ListingIgnoresArrivalOrder | port_scanner.py:32-33 | whatever order the probe threads append their distinct-port entries in, the listing is the same |
| Ports.Interval | port_scanner.py:82 | `range(lo, hi + 1)` has `hi - lo + 1` ports (none when `lo > hi`), and its i-th port is `lo + i` |
| Ports.IntervalFacts | port_scanner.py:82 | an interval is strictly increasing and holds exactly the ports from `lo` to `hi` |
| Dispatcher.Cap | port_scanner.py:88 | the effective batch size is exactly `max(threads, 1)`: a limit below 1 makes `len(threads) >= self.threads` true after every start |
| Dispatcher.StepLaunch | port_scanner.py:83-85 | starting a probe adds its port to the started ports, leaves the joined ports alone, and raises the in-flight count by one |
| Dispatcher.StepJoin | port_scanner.py:89-90 | joining a probe adds its port to the joined ports and lowers the in-flight count by one |
| Dispatcher.CollectAppend | port_scanner.py:82-95 | probing two runs of ports one after the other records the first run's entries, then the second's |
| Dispatcher.EventsAppend | port_scanner.py:82-95 | the started and the joined ports of two stretches of the scan are those of the first stretch followed by those of the second |
| Dispatcher.PeakAppend | port_scanner.py:86-91 | once every started probe has been joined, the largest number in flight afterwards is measured from zero |
| Dispatcher.LaunchesOnly | port_scanner.py:82-85 | starting probes without joining any leaves all of them in flight, so the peak is their number |
| Dispatcher.JoinsEffect | port_scanner.py:89-90 | joining started probes in start order adds exactly them to the joined ports, never joins one before it starts, and never raises the peak |
| Dispatcher.OneBatch | port_scanner.py:82-91 | a batch started in full and then joined in full starts and joins each of its ports once, in order, with the whole batch in flight at its peak |
| Dispatcher.ScheduleFacts | port_scanner.py:81-95 | the batched schedule starts every port once in ascending order, joins each after it starts and in the same order, and has at most `cap` probes in flight, reaching `min(cap, number of ports)` |
| Dispatcher.TwoThreadSchedule | port_scanner.py:82-95 | with a limit of two, ports 1 to 5 are started and joined as 1 2, then 3 4, then 5 |
| Dispatcher.BatchedAppend | port_scanner.py:82-95 | when the first ports fill whole batches, the schedule of all ports is theirs followed by that of the rest |
| Dispatcher.BatchClosed | port_scanner.py:88-95 | joining the open batch, at most `cap` long, completes its place in the batched schedule |
| Dispatcher.JoinBatch | port_scanner.py:89-91 | joining a batch adds one join per started probe, in start order, and records the batch's entries in that order |
| Dispatcher.StartNext | port_scanner.py:82-91 | one iteration starts the next port; when the batch reaches `threads` the whole batch is joined and emptied, otherwise it stays open and nothing is recorded; either way the trace stays on the batched schedule |
| Dispatcher.Drained | port_scanner.py:93-95 | joining what is left after the last port completes the batched schedule of the whole interval and the entries of the ascending scan |
| Dispatcher.Dispatch | port_scanner.py:81-95 | the trace is exactly the batched schedule of the interval with batch size `max(threads, 1)`: every port is started once in ascending order and joined, no probe is joined before it starts, the largest number of probes in flight is the smaller of the batch size and the number of ports, and the entries are those of a one-at-a-time ascending scan |
| Dispatcher.RunScan | port_scanner.py:62-110 | an unresolvable target ends the scan before any probe starts; otherwise the probes follow the batched schedule, so every port is started and joined within the thread limit, and the listing is made from the entries of the ascending scan |
| BasicScan.OpenPortsInSpec | basic_port_scanner.py:61-68 | probing increasing ports lists exactly the open ones, each once, in ascending order |
| BasicScan.ProgressAdvance | basic_port_scanner.py:70-72 | probing a port prints a progress mark exactly when the port is a multiple of 100 |
| BasicScan.ScanPorts | basic_port_scanner.py:61-72 | ports 1 to 1024 are probed once each in ascending order; the progress marks are exactly the ten multiples of 100 in that range, in ascending order |
| BasicScan.Summarize | basic_port_scanner.py:82-87 | the summary is "none found" exactly for an empty list; otherwise it counts and lists the open ports |
| BasicScan.ScanMain | basic_port_scanner.py:50-87 | an unresolvable target ends the run with nothing probed; otherwise the open ports are exactly the accepting ports of 1..1024, in ascending order, the progress marks are the ten multiples of 100 in ascending order, and the summary reports the open ports |
| Equivalence.BatchedMatchesSequential | port_scanner.py:81-95 | for any ports, the threaded dispatcher records exactly the ports the sequential scanner finds open, in the same order |
| Equivalence.RecordsAreAnswers | port_scanner.py:30-33 | every recorded entry is the probe's own answer for that entry's port |
| Equivalence.RecordsCarryBanners | port_scanner.py:28-33 | every recorded entry carries the banner grabbed from its port |
| Equivalence.ScanRecordsOpenPorts | port_scanner.py:81-95 | a scan of `lo..hi` records each accepting port of the interval exactly once, in ascending order, and nothing else |
| Equivalence.ListingOfSorted | port_scanner.py:106 | a listing of entries already in port order keeps their order |
| Equivalence.NothingRecorded | port_scanner.py:104-110 | a scan records nothing exactly when no port of the interval accepts |
| Equivalence.ScanListing | port_scanner.py:104-110 | the scan reports "no open ports" exactly when no port of the interval accepts; otherwise its rows are the records in the order they were made |
| Equivalence.SshRecords | port_scanner.py:81-95 | with only port 22 accepting, a scan of 20..25 records exactly one entry: port 22 with the banner grabbed there |
| Equivalence.SshBanner | port_scanner.py:53-57 | an SSH server answering `SSH-2.0-OpenSSH` on port 22 shows the banner `(SSH-2.0-OpenSSH)` |
| Equivalence.SshScenario | port_scanner.py:104-108 | `-p 20-25` against a host with only SSH open on port 22 lists exactly one row: port 22, `SSH`, `(SSH-2.0-OpenSSH)` |

## Left out

- Sockets, timeouts and the clock are not modelled. Connection results, name resolution and the payload exchange come from the `Net` oracle, and the elapsed-time line is not modelled.
- Equivalence.BatchedMatchesSequential: both scanners read one oracle, so the theorem compares them at one connection timeout. The basic scanner always waits one second (basic_port_scanner.py:17); the threaded one waits `-t` seconds (port_scanner.py:23), one second by default.
- Threads and the lock are not modelled. Within a batch, entries are recorded in start order. `Report.ListingIgnoresArrivalOrder` shows that any other append order gives the same listing.
- Decoding is left out. The 1024-byte `recv` cap and the UTF-8 decode that drops invalid bytes belong to the oracle: `exchange` returns the already decoded text.
- Number syntax is limited. Python's `int()` also accepts surrounding whitespace, a sign, underscores and non-ASCII digits. The model accepts only ASCII digit strings, so those arguments fail to parse here. The 4300-digit cap is CPython's default since 3.11 (and 3.10.7); older interpreters have no cap, and changing it through `sys.set_int_max_str_digits` or `PYTHONINTMAXSTRDIGITS` is not modelled.
- Argument parsing is not modelled: argparse, the `argv` length check of the basic scanner, and the `--timeout` value. The parsed port interval and thread limit are parameters.
- Output is not modelled: every `print`, and the file writing of `save_results`. The rows `save_results` writes (port_scanner.py:132-137) are the same rows `Report.MakeListing` produces.
- `KeyboardInterrupt` handling is not modelled.
- Failures outside the probes are not modelled. A `thread.start()` failure (port_scanner.py:85) or an exception other than `gaierror` from `gethostbyname` (port_scanner.py:72) ends `run_scan` through `main`'s `except Exception` (port_scanner.py:178-179), with no listing. `Dispatcher.RunScan` treats resolution as either succeeding or giving `gaierror`.
- Port numbers are not range-checked. The source passes ports above 65535 to `connect_ex`, which raises; the model leaves that to the `connect` oracle, which may answer `Raised` for them.
- A socket left open on an exception path is not modelled.

=== FILE: banner.dfy ===
/** Banner grabbing on an open connection: the probe payload chosen by port,
    and the displayed form of whatever the service answered. */
module Banner {
  import opened Network
  import opened Whitespace

  /** Ports that get an HTTP request instead of a bare line break. */
  const WebPorts: set<int> := {80, 443, 8080, 8443}

  /** How many characters of the stripped answer are displayed. */
  const DisplayWidth: nat := 50

  const Ellipsis: string := "..."

  const RequestLine: string := "GET / HTTP/1.1\r\nHost: "

  /** The bytes sent right after connecting. */
  function Payload(port: int, target: string): (p: string)
    ensures |p| >= 2 && p[|p| - 2] == '\r' && p[|p| - 1] == '\n'
    ensures port in WebPorts <==> |p| > 2
    ensures port in WebPorts ==>
      && |p| == |RequestLine| + |target| + 4
      && RequestLine <= p
      && p[|RequestLine|..|RequestLine| + |target|] == target
      && p[|p| - 4] == '\r' && p[|p| - 3] == '\n'
  {
    if port in WebPorts then RequestLine + target + "\r\n\r\n" else "\r\n"
  }

  /** The displayed banner for a received answer: stripped, cut to
      `DisplayWidth` characters with an ellipsis when longer, in parentheses. */
  function FormatBanner(received: string): (b: string)
    ensures 2 <= |b| <= DisplayWidth + |Ellipsis| + 2
    ensures b[0] == '(' && b[|b| - 1] == ')'
    ensures |Strip(received)| <= DisplayWidth ==> b[1..|b| - 1] == Strip(received)
    ensures |Strip(received)| > DisplayWidth ==>
      b[1..|b| - 1] == Strip(received)[..DisplayWidth] + Ellipsis
  {
    var text := Strip(received);
    if |text| > DisplayWidth then "(" + text[..DisplayWidth] + Ellipsis + ")"
    else "(" + text + ")"
  }

  /** The text shown between the parentheses of a formatted banner. */
  function Shown(b: string): string
    requires |b| >= 2
  {
    b[1..|b| - 1]
  }

  /** A short answer is shown in full (after stripping); a long one shows its
      first `DisplayWidth` characters: the shown text starts with the stripped
      answer's first `DisplayWidth` characters in both cases. */
  lemma ShownIsPrefixOfAnswer(received: string)
    ensures var text := Strip(received);
      if |text| <= DisplayWidth then Shown(FormatBanner(received)) == text
      else Shown(FormatBanner(received))[..DisplayWidth] == text[..DisplayWidth]
           && |Shown(FormatBanner(received))| == DisplayWidth + |Ellipsis|
  {
  }

  /** A short answer without surrounding whitespace is shown as it is. */
  lemma ShortAnswerShown(received: string)
    requires |received| <= DisplayWidth
    requires |received| > 0 ==> !IsSpace(received[0]) && !IsSpace(received[|received| - 1])
    ensures FormatBanner(received) == "(" + received + ")"
  {
    StripUnpadded(received);
  }

  /** A short answer without surrounding whitespace becomes the banner as it
      is, in parentheses. */
  lemma ShortAnswerBanner(net: Net, target: string, port: int, answer: string)
    requires net.exchange(target, port, Payload(port, target)) == Received(answer)
    requires |answer| <= DisplayWidth
    requires |answer| > 0 ==> !IsSpace(answer[0]) && !IsSpace(answer[|answer| - 1])
    ensures GrabBanner(net, target, port) == "(" + answer + ")"
  {
    ShortAnswerShown(answer);
  }

  /** Formatting only depends on the stripped answer. */
  lemma FormatIgnoresSurroundingSpace(received: string)
    ensures FormatBanner(Strip(received)) == FormatBanner(received)
  {
    StripIdempotent(received);
  }

  /** `grab_banner`: send the payload, read one answer and format it; any
      exception on the way gives the empty string. */
  function GrabBanner(net: Net, target: string, port: int): (b: string)
    ensures |b| == 0 <==> net.exchange(target, port, Payload(port, target)).Failed?
  {
    var reply := net.exchange(target, port, Payload(port, target));
    if reply.Received? then FormatBanner(reply.text) else ""
  }

  /** An answer that arrives is the banner, formatted. */
  lemma ReceivedBanner(net: Net, target: string, port: int)
    ensures var reply := net.exchange(target, port, Payload(port, target));
      reply.Received? ==> GrabBanner(net, target, port) == FormatBanner(reply.text)
  {
  }
}

=== FILE: basic_scan.dfy ===
/** `basic_port_scanner.py`: one connection attempt after the other over the
    fixed ports 1 to 1024, a progress line every hundred ports, and a summary. */
module BasicScan {
  import opened Network
  import opened Prober
  import opened Ports

  const FirstPort: int := 1
  const LastPort: int := 1024
  const ProgressStep: int := 100

  /** The ports `scan_port` finds open among `ports`, in probing order. */
  function OpenPortsIn(net: Net, target: string, ports: seq<int>): seq<int>
  {
    if |ports| == 0 then []
    else
      var last := ports[|ports| - 1];
      OpenPortsIn(net, target, ports[..|ports| - 1]) + (if ScanPort(net, target, last) then [last] else [])
  }

  /** Probing ports in ascending order lists exactly the open ones, in
      ascending order and each once. */
  lemma {:induction false} OpenPortsInSpec(net: Net, target: string, ports: seq<int>)
    requires StrictlyIncreasing(ports)
    ensures StrictlyIncreasing(OpenPortsIn(net, target, ports))
    ensures forall p :: p in OpenPortsIn(net, target, ports) <==> p in ports && ScanPort(net, target, p)
  {
    if |ports| > 0 {
      var init := ports[..|ports| - 1];
      var last := ports[|ports| - 1];
      assert ports == init + [last];
      OpenPortsInSpec(net, target, init);
      var found := OpenPortsIn(net, target, init);
      forall p | p in found ensures p < last {
        var k :| 0 <= k < |init| && init[k] == p;
      }
      if ScanPort(net, target, last) {
        IncreasingAppend(found, last);
      }
    }
  }

  /** `progress` holds the progress marks printed before probing `port`:
      the multiples of `ProgressStep` below `port`, ascending. */
  ghost predicate ProgressBefore(progress: seq<int>, port: int)
  {
    && StrictlyIncreasing(progress)
    && (forall p :: p in progress <==> FirstPort <= p < port && p % ProgressStep == 0)
    && |progress| == (port - 1) / ProgressStep
  }

  /** Probing `port` prints a mark exactly when `port` is a multiple of
      `ProgressStep`. */
  lemma ProgressAdvance(progress: seq<int>, port: int)
    requires FirstPort <= port
    requires ProgressBefore(progress, port)
    ensures ProgressBefore(if port % ProgressStep == 0 then progress + [port] else progress, port + 1)
  {
    if port % ProgressStep == 0 {
      IncreasingAppend(progress, port);
      assert port / ProgressStep == (port - 1) / ProgressStep + 1;
    } else {
      assert port / ProgressStep == (port - 1) / ProgressStep;
    }
  }

  /** The scan loop of `main`: every port from 1 to 1024 probed once in
      ascending order, the open ones collected, and a progress line emitted
      at each multiple of 100. */
  method ScanPorts(net: Net, target: string)
    returns (openPorts: seq<int>, probed: seq<int>, progress: seq<int>)
    ensures probed == Interval(FirstPort, LastPort)
    ensures openPorts == OpenPortsIn(net, target, probed)
    ensures StrictlyIncreasing(progress)
    ensures forall p :: p in progress <==> FirstPort <= p <= LastPort && p % ProgressStep == 0
    ensures |progress| == LastPort / ProgressStep
  {
    openPorts, probed, progress := [], [], [];
    var port := FirstPort;
    while port < LastPort + 1
      invariant FirstPort <= port <= LastPort + 1
      invariant probed == Interval(FirstPort, port - 1)
      invariant openPorts == OpenPortsIn(net, target, probed)
      invariant ProgressBefore(progress, port)
    {
      assert (probed + [port])[..|probed|] == probed;
      ProgressAdvance(progress, port);
      probed := probed + [port];
      if ScanPort(net, target, port) {
        openPorts := openPorts + [port];
      }
      if port % ProgressStep == 0 {
        progress := progress + [port];
      }
      port := port + 1;
    }
  }

  /** The closing lines: the count, then the list or the "No open ports
      found" message. */
  datatype Summary = Totals(total: nat, ports: seq<int>) | NoneFound

  function Summarize(openPorts: seq<int>): (s: Summary)
    ensures s.NoneFound? <==> |openPorts| == 0
    ensures s.Totals? ==> s.total == |openPorts| && s.ports == openPorts
  {
    if |openPorts| == 0 then NoneFound else Totals(|openPorts|, openPorts)
  }

  /** How `main` ends: the target did not resolve (nothing probed), or the
      scan finished with its progress marks and summary. */
  datatype BasicRun = NotResolved | Finished(openPorts: seq<int>, progress: seq<int>, summary: Summary)

  /** `main` after the argument check. */
  method ScanMain(net: Net, target: string) returns (run: BasicRun, probed: seq<int>)
    ensures run.NotResolved? <==> net.resolve(target).None?
    ensures run.NotResolved? ==> probed == []
    ensures run.Finished? ==>
      && probed == Interval(FirstPort, LastPort)
      && StrictlyIncreasing(run.openPorts)
      && (forall p :: p in run.openPorts <==> FirstPort <= p <= LastPort && Accepts(net.connect(target, p)))
      && (forall p :: p in run.progress <==> FirstPort <= p <= LastPort && p % ProgressStep == 0)
      && StrictlyIncreasing(run.progress)
      && |run.progress| == LastPort / ProgressStep
      && run.summary == Summarize(run.openPorts)
  {
    if net.resolve(target).None? {
      return NotResolved, [];
    }
    var openPorts, progress;
    openPorts, probed, progress := ScanPorts(net, target);
    IntervalFacts(FirstPort, LastPort);
    OpenPortsInSpec(net, target, probed);
    run := Finished(openPorts, progress, Summarize(openPorts));
  }
}

=== FILE: basics.dfy ===
/** Small shared vocabulary: optional values, results carrying an error, and
    integer helpers used by several modules of the scanner model. */
module Basics {

  /** A value that may be absent, as Python's `None`-or-value results. */
  datatype Option<T> = None | Some(value: T)

  /** The outcome of a computation that may raise: `Err` stands for the exception. */
  datatype Result<T, E> = Ok(value: T) | Err(error: E)

  function Min(a: int, b: int): int
  {
    if a <= b then a else b
  }

  function Max(a: int, b: int): int
  {
    if a <= b then b else a
  }
}

=== FILE: dispatcher.dfy ===
/** `PortScanner.run_scan`: one probe thread per port, started in ascending
    port order, with the whole batch of started threads joined whenever it
    reaches the `threads` limit, and the rest joined after the last port.

    Threads are modelled sequentially. The scan leaves a trace of `Launch`
    (`thread.start()`) and `Join` (`t.join()`) events; a probe's effect on
    `open_ports` is applied when it is joined, in launch order. */
module Dispatcher {
  import opened Basics
  import opened Network
  import opened Prober
  import opened Report
  import opened Ports

  datatype Event = Launch(port: int) | Join(port: int)

  /** Ports whose probe was started, in order. */
  function Launched(t: seq<Event>): seq<int>
  {
    if |t| == 0 then []
    else Launched(t[..|t| - 1]) + (if t[|t| - 1].Launch? then [t[|t| - 1].port] else [])
  }

  /** Ports whose probe was joined, in order. */
  function Joined(t: seq<Event>): seq<int>
  {
    if |t| == 0 then []
    else Joined(t[..|t| - 1]) + (if t[|t| - 1].Join? then [t[|t| - 1].port] else [])
  }

  /** Probes started but not yet joined after the trace `t`. */
  function InFlight(t: seq<Event>): int
  {
    |Launched(t)| - |Joined(t)|
  }

  /** The largest number of probes in flight at any point of `t`. */
  function Peak(t: seq<Event>): (p: int)
    ensures p >= 0 && p >= InFlight(t)
  {
    if |t| == 0 then 0 else Max(Peak(t[..|t| - 1]), InFlight(t))
  }

  /** At every point of `t`, the joined probes are a prefix of the launched
      ones: nothing is joined before it is started, nor out of start order. */
  predicate JoinsFollowLaunches(t: seq<Event>)
  {
    |t| == 0 || (JoinsFollowLaunches(t[..|t| - 1]) && Joined(t) <= Launched(t))
  }

  /** The effective batch size: a limit below 1 joins after every start. */
  function Cap(threads: int): (c: nat)
    ensures c == Max(threads, 1)
  {
    if threads < 1 then 1 else threads
  }

  /** Starting one more probe. */
  lemma StepLaunch(t: seq<Event>, p: int)
    ensures Launched(t + [Launch(p)]) == Launched(t) + [p]
    ensures Joined(t + [Launch(p)]) == Joined(t)
    ensures InFlight(t + [Launch(p)]) == InFlight(t) + 1
    ensures Peak(t + [Launch(p)]) == Max(Peak(t), InFlight(t) + 1)
    ensures JoinsFollowLaunches(t + [Launch(p)]) <==> JoinsFollowLaunches(t) && Joined(t) <= Launched(t) + [p]
  {
    assert (t + [Launch(p)])[..|t|] == t;
  }

  /** Joining one probe. */
  lemma StepJoin(t: seq<Event>, p: int)
    ensures Launched(t + [Join(p)]) == Launched(t)
    ensures Joined(t + [Join(p)]) == Joined(t) + [p]
    ensures InFlight(t + [Join(p)]) == InFlight(t) - 1
    ensures Peak(t + [Join(p)]) == Max(Peak(t), InFlight(t) - 1)
    ensures JoinsFollowLaunches(t + [Join(p)]) <==> JoinsFollowLaunches(t) && Joined(t) + [p] <= Launched(t)
  {
    assert (t + [Join(p)])[..|t|] == t;
  }

  /** The started and the joined ports of two traces run one after the other. */
  lemma {:induction false} EventsAppend(a: seq<Event>, b: seq<Event>)
    ensures Launched(a + b) == Launched(a) + Launched(b)
    ensures Joined(a + b) == Joined(a) + Joined(b)
    decreases |b|
  {
    if |b| == 0 {
      assert a + b == a;
    } else {
      var b' := b[..|b| - 1];
      assert (a + b)[..|a + b| - 1] == a + b';
      assert (a + b)[|a + b| - 1] == b[|b| - 1];
      EventsAppend(a, b');
    }
  }

  /** After a trace that ends with nothing in flight, the peak of what
      follows is measured from zero. */
  lemma {:induction false} PeakAppend(a: seq<Event>, b: seq<Event>)
    requires InFlight(a) == 0
    ensures Peak(a + b) == Max(Peak(a), Peak(b))
    decreases |b|
  {
    if |b| == 0 {
      assert a + b == a;
    } else {
      var b' := b[..|b| - 1];
      assert (a + b)[..|a + b| - 1] == a + b';
      EventsAppend(a, b);
      PeakAppend(a, b');
    }
  }

  /** A trace whose probes were all joined can be followed by any
      well-ordered trace and stays well-ordered. */
  lemma {:induction false} FollowAppend(a: seq<Event>, b: seq<Event>)
    requires JoinsFollowLaunches(a) && Joined(a) == Launched(a)
    requires JoinsFollowLaunches(b)
    ensures JoinsFollowLaunches(a + b)
    decreases |b|
  {
    if |b| == 0 {
      assert a + b == a;
    } else {
      var b' := b[..|b| - 1];
      assert (a + b)[..|a + b| - 1] == a + b';
      FollowAppend(a, b');
      EventsAppend(a, b);
      assert Joined(b) <= Launched(b);
      assert Joined(a) + Joined(b) <= Launched(a) + Launched(b);
    }
  }

  /** Starting the probes of `ports`, in order. */
  function Launches(ports: seq<int>): seq<Event>
  {
    if |ports| == 0 then [] else Launches(ports[..|ports| - 1]) + [Launch(ports[|ports| - 1])]
  }

  /** Joining the probes of `ports`, in order. */
  function Joins(ports: seq<int>): seq<Event>
  {
    if |ports| == 0 then [] else Joins(ports[..|ports| - 1]) + [Join(ports[|ports| - 1])]
  }

  lemma LaunchesSnoc(ports: seq<int>, p: int)
    ensures Launches(ports + [p]) == Launches(ports) + [Launch(p)]
  {
    assert (ports + [p])[..|ports|] == ports;
  }

  lemma JoinsSnoc(ports: seq<int>, p: int)
    ensures Joins(ports + [p]) == Joins(ports) + [Join(p)]
  {
    assert (ports + [p])[..|ports|] == ports;
  }

  /** Starting probes one after the other without joining any: all of them
      are in flight at the end. */
  lemma {:induction false} LaunchesOnly(ports: seq<int>)
    ensures Launched(Launches(ports)) == ports
    ensures Joined(Launches(ports)) == []
    ensures JoinsFollowLaunches(Launches(ports))
    ensures Peak(Launches(ports)) == |ports|
    decreases |ports|
  {
    if |ports| > 0 {
      var init, p := ports[..|ports| - 1], ports[|ports| - 1];
      assert ports == init + [p];
      LaunchesOnly(init);
      StepLaunch(Launches(init), p);
    }
  }

  /** Joining started probes in start order adds them to the joined ports,
      keeps joins behind starts, and never raises the peak. */
  lemma {:induction false} JoinsEffect(t: seq<Event>, b: seq<int>)
    requires JoinsFollowLaunches(t) && Joined(t) + b <= Launched(t)
    ensures Launched(t + Joins(b)) == Launched(t)
    ensures Joined(t + Joins(b)) == Joined(t) + b
    ensures JoinsFollowLaunches(t + Joins(b))
    ensures Peak(t + Joins(b)) == Peak(t)
    decreases |b|
  {
    if |b| == 0 {
      assert t + Joins(b) == t;
    } else {
      var b', p := b[..|b| - 1], b[|b| - 1];
      assert b == b' + [p];
      JoinsSnoc(b', p);
      assert t + Joins(b) == (t + Joins(b')) + [Join(p)];
      assert Joined(t) + b' <= Joined(t) + b;
      JoinsEffect(t, b');
      StepJoin(t + Joins(b'), p);
    }
  }

  /** One batch started in full and then joined in full. */
  lemma OneBatch(ports: seq<int>)
    ensures Launched(Launches(ports) + Joins(ports)) == ports
    ensures Joined(Launches(ports) + Joins(ports)) == ports
    ensures JoinsFollowLaunches(Launches(ports) + Joins(ports))
    ensures Peak(Launches(ports) + Joins(ports)) == |ports|
  {
    LaunchesOnly(ports);
    assert Joined(Launches(ports)) + ports == ports;
    JoinsEffect(Launches(ports), ports);
  }

  /** The schedule of `run_scan`, stated independently of its loop: the
      ports are cut into consecutive batches of `cap` (the last one possibly
      shorter), and each batch is started in full and then joined in full
      before the next batch starts. */
  function BatchedTrace(ports: seq<int>, cap: nat): seq<Event>
    requires cap >= 1
    decreases |ports|
  {
    if |ports| <= cap then Launches(ports) + Joins(ports)
    else Launches(ports[..cap]) + Joins(ports[..cap]) + BatchedTrace(ports[cap..], cap)
  }

  /** The batched schedule starts every port once, in order, joins each one
      after it starts, in the same order, and never has more than `cap`
      probes in flight; with at least `cap` ports it reaches `cap`. */
  lemma {:induction false} ScheduleFacts(ports: seq<int>, cap: nat)
    requires cap >= 1
    ensures Launched(BatchedTrace(ports, cap)) == ports
    ensures Joined(BatchedTrace(ports, cap)) == ports
    ensures JoinsFollowLaunches(BatchedTrace(ports, cap))
    ensures Peak(BatchedTrace(ports, cap)) == Min(cap, |ports|)
    decreases |ports|
  {
    if |ports| <= cap {
      OneBatch(ports);
    } else {
      var first, rest := ports[..cap], ports[cap..];
      assert BatchedTrace(ports, cap) == Launches(first) + Joins(first) + BatchedTrace(rest, cap);
      ScheduleFacts(rest, cap);
      FullBatchFirst(first, Launches(first) + Joins(first), BatchedTrace(rest, cap), rest);
      assert first + rest == ports;
    }
  }

  /** A full batch followed by any well-ordered trace whose peak is at most
      a batch: the batch's ports come first, and the peak is the batch size. */
  lemma FullBatchFirst(first: seq<int>, head: seq<Event>, tail: seq<Event>, rest: seq<int>)
    requires head == Launches(first) + Joins(first)
    requires Launched(tail) == rest && Joined(tail) == rest
    requires JoinsFollowLaunches(tail) && Peak(tail) <= |first|
    ensures Launched(head + tail) == first + rest
    ensures Joined(head + tail) == first + rest
    ensures JoinsFollowLaunches(head + tail)
    ensures Peak(head + tail) == |first|
  {
    OneBatch(first);
    EventsAppend(head, tail);
    PeakAppend(head, tail);
    FollowAppend(head, tail);
  }

  /** Five ports with a limit of two threads: two full batches, then the
      fifth port alone. */
  lemma TwoThreadSchedule()
    ensures BatchedTrace([1, 2, 3, 4, 5], 2)
      == [Launch(1), Launch(2), Join(1), Join(2),
          Launch(3), Launch(4), Join(3), Join(4),
          Launch(5), Join(5)]
  {
    assert [1, 2, 3, 4, 5][..2] == [1, 2] && [1, 2, 3, 4, 5][2..] == [3, 4, 5];
    assert [3, 4, 5][..2] == [3, 4] && [3, 4, 5][2..] == [5];
    assert [1, 2][..1] == [1] && [3, 4][..1] == [3];
  }

  /** `n` probes make a whole number of full batches of `cap`. */
  predicate WholeBatches(n: nat, cap: nat)
    requires cap >= 1
    decreases n
  {
    n == 0 || (n >= cap && WholeBatches(n - cap, cap))
  }

  /** When `a` fills whole batches, the schedule of `a + b` is that of `a`
      followed by that of `b`. */
  lemma {:induction false} BatchedAppend(a: seq<int>, b: seq<int>, cap: nat)
    requires cap >= 1 && WholeBatches(|a|, cap)
    ensures BatchedTrace(a + b, cap) == BatchedTrace(a, cap) + BatchedTrace(b, cap)
    decreases |a|
  {
    if |a| == 0 {
      assert a + b == b;
    } else {
      assert (a + b)[..cap] == a[..cap];
      assert (a + b)[cap..] == a[cap..] + b;
      if |a| == cap {
        assert a[..cap] == a && a[cap..] == [];
        if |b| == 0 {
          assert a + b == a;
        }
      } else {
        BatchedAppend(a[cap..], b, cap);
      }
    }
  }

  /** Joining an open batch of at most `cap` started probes completes its
      place in the batched schedule. */
  lemma BatchClosed(joined: seq<int>, batch: seq<int>, cap: nat, t: seq<Event>, t': seq<Event>)
    requires cap >= 1 && WholeBatches(|joined|, cap) && |batch| <= cap
    requires t == BatchedTrace(joined, cap) + Launches(batch)
    requires t' == t + Joins(batch)
    ensures t' == BatchedTrace(joined + batch, cap)
    ensures |batch| == cap ==> WholeBatches(|joined + batch|, cap)
  {
    BatchedAppend(joined, batch, cap);
    if |batch| == cap {
      assert |joined + batch| - cap == |joined|;
    }
  }

  /** A probe thread's work: the entry it appends to `open_ports`, if any. */
  type Probe = int -> Option<OpenPort>

  /** `scan_port` against the oracle, as the dispatcher runs it. */
  function ScanProbe(net: Net, target: string): Probe
  {
    port => ProbePort(net, target, port)
  }

  /** What the probe of `port` appends to `open_ports`. */
  function Recorded(probe: Probe, port: int): (r: seq<OpenPort>)
    ensures |r| <= 1
  {
    match probe(port)
    case Some(entry) => [entry]
    case None => []
  }

  /** The entries appended by probing `ports` one after the other. */
  function Collect(probe: Probe, ports: seq<int>): seq<OpenPort>
  {
    if |ports| == 0 then []
    else Collect(probe, ports[..|ports| - 1]) + Recorded(probe, ports[|ports| - 1])
  }

  lemma CollectSnoc(probe: Probe, ports: seq<int>, p: int)
    ensures Collect(probe, ports + [p]) == Collect(probe, ports) + Recorded(probe, p)
  {
    assert (ports + [p])[..|ports|] == ports;
  }

  lemma {:induction false} CollectAppend(probe: Probe, a: seq<int>, b: seq<int>)
    ensures Collect(probe, a + b) == Collect(probe, a) + Collect(probe, b)
    decreases |b|
  {
    if |b| > 0 {
      var b' := b[..|b| - 1];
      assert (a + b)[..|a + b| - 1] == a + b';
      CollectAppend(probe, a, b');
    } else {
      assert a + b == a;
    }
  }

  /** Joining the next probe of a batch extends the joins made so far. */
  lemma JoinsPrefix(t: seq<Event>, t': seq<Event>, batch: seq<int>, i: nat)
    requires i < |batch| && t' == t + Joins(batch[..i])
    ensures t' + [Join(batch[i])] == t + Joins(batch[..i + 1])
  {
    assert batch[..i + 1] == batch[..i] + [batch[i]];
    JoinsSnoc(batch[..i], batch[i]);
  }

  /** `for t in threads: t.join()`: join every probe of the batch, in start
      order; each joined probe's entry is recorded as it is joined. */
  method JoinBatch(probe: Probe, batch: seq<int>, trace: seq<Event>, recorded: seq<OpenPort>)
    returns (trace': seq<Event>, recorded': seq<OpenPort>)
    ensures trace' == trace + Joins(batch)
    ensures recorded' == recorded + Collect(probe, batch)
  {
    trace', recorded' := trace, recorded;
    var i := 0;
    while i < |batch|
      invariant 0 <= i <= |batch|
      invariant trace' == trace + Joins(batch[..i])
      invariant recorded' == recorded + Collect(probe, batch[..i])
    {
      var port := batch[i];
      assert batch[..i + 1] == batch[..i] + [port];
      CollectSnoc(probe, batch[..i], port);
      JoinsPrefix(trace, trace', batch, i);
      trace' := trace' + [Join(port)];
      recorded' := recorded' + Recorded(probe, port);
      i := i + 1;
    }
    assert batch[..i] == batch;
  }

  /** The dispatch loop's state before starting `port`, with batch limit
      `cap`: the ports `startPort .. port - 1` are the `joined` ones followed
      by the open `batch`; the joined ones fill whole batches and the open
      one is below the limit; the trace is the batched schedule of the
      joined ports followed by the starts of the open batch; and `recorded`
      holds what the joined probes appended. */
  ghost predicate Dispatching(probe: Probe, startPort: int, port: int, cap: nat,
                              trace: seq<Event>, batch: seq<int>, recorded: seq<OpenPort>,
                              joined: seq<int>)
  {
    && startPort <= port
    && cap >= 1
    && joined + batch == Interval(startPort, port - 1)
    && WholeBatches(|joined|, cap)
    && |batch| < cap
    && trace == BatchedTrace(joined, cap) + Launches(batch)
    && recorded == Collect(probe, joined)
  }

  /** One iteration of the dispatch loop: start the probe of `port`, and
      join the whole batch if it has reached the `threads` limit. */
  method StartNext(probe: Probe, startPort: int, port: int, threads: int,
                   trace: seq<Event>, batch: seq<int>, recorded: seq<OpenPort>,
                   ghost joined: seq<int>)
    returns (trace': seq<Event>, batch': seq<int>, recorded': seq<OpenPort>,
             ghost joined': seq<int>)
    requires Dispatching(probe, startPort, port, Cap(threads), trace, batch, recorded, joined)
    ensures Dispatching(probe, startPort, port + 1, Cap(threads), trace', batch', recorded', joined')
    ensures |batch| + 1 >= threads ==>
      && batch' == []
      && trace' == trace + [Launch(port)] + Joins(batch + [port])
      && recorded' == recorded + Collect(probe, batch + [port])
    ensures |batch| + 1 < threads ==>
      && batch' == batch + [port]
      && trace' == trace + [Launch(port)]
      && recorded' == recorded
  {
    trace', batch' := trace + [Launch(port)], batch + [port];
    LaunchesSnoc(batch, port);
    assert Interval(startPort, port) == Interval(startPort, port - 1) + [port];
    if |batch'| >= threads {
      trace', recorded' := JoinBatch(probe, batch', trace', recorded);
      BatchClosed(joined, batch + [port], Cap(threads), trace + [Launch(port)], trace');
      CollectAppend(probe, joined, batch + [port]);
      joined', batch' := joined + (batch + [port]), [];
      assert joined' + batch' == Interval(startPort, port);
    } else {
      recorded', joined' := recorded, joined;
    }
  }

  /** After the last port, joining the open batch completes the schedule. */
  lemma Drained(probe: Probe, startPort: int, endPort: int, port: int, cap: nat,
                trace: seq<Event>, batch: seq<int>, recorded: seq<OpenPort>, joined: seq<int>,
                trace': seq<Event>, recorded': seq<OpenPort>)
    requires endPort < port <= Max(startPort, endPort + 1)
    requires Dispatching(probe, startPort, port, cap, trace, batch, recorded, joined)
    requires trace' == trace + Joins(batch)
    requires recorded' == recorded + Collect(probe, batch)
    ensures trace' == BatchedTrace(Interval(startPort, endPort), cap)
    ensures recorded' == Collect(probe, Interval(startPort, endPort))
  {
    assert Interval(startPort, port - 1) == Interval(startPort, endPort);
    BatchClosed(joined, batch, cap, trace, trace');
    CollectAppend(probe, joined, batch);
  }

  /** The thread-dispatch loop of `run_scan`, from the first `thread.start()`
      to the last `join()`. */
  method Dispatch(probe: Probe, startPort: int, endPort: int, threads: int)
    returns (recorded: seq<OpenPort>, trace: seq<Event>)
    ensures trace == BatchedTrace(Interval(startPort, endPort), Cap(threads))
    ensures Launched(trace) == Interval(startPort, endPort)
    ensures Joined(trace) == Launched(trace)
    ensures JoinsFollowLaunches(trace)
    ensures Peak(trace) == Min(Cap(threads), |Interval(startPort, endPort)|)
    ensures recorded == Collect(probe, Interval(startPort, endPort))
  {
    recorded, trace := [], [];
    var batch: seq<int> := [];
    var port := startPort;
    ghost var joined: seq<int> := [];
    assert trace == BatchedTrace(joined, Cap(threads)) + Launches(batch);
    while port <= endPort
      invariant port <= Max(startPort, endPort + 1)
      invariant Dispatching(probe, startPort, port, Cap(threads), trace, batch, recorded, joined)
      decreases endPort - port
    {
      trace, batch, recorded, joined := StartNext(probe, startPort, port, threads, trace, batch, recorded, joined);
      port := port + 1;
    }
    var trace', recorded' := JoinBatch(probe, batch, trace, recorded);
    Drained(probe, startPort, endPort, port, Cap(threads), trace, batch, recorded, joined, trace', recorded');
    ScheduleFacts(Interval(startPort, endPort), Cap(threads));
    trace, recorded := trace', recorded';
  }

  /** How a scan ends: the target did not resolve, or the listing printed
      once every probe has been joined. */
  datatype ScanOutcome = Unresolved | Completed(listing: Listing)

  /** `run_scan`: resolve the target, dispatch the probes, then list. */
  method RunScan(net: Net, target: string, startPort: int, endPort: int, threads: int)
    returns (outcome: ScanOutcome, trace: seq<Event>)
    ensures outcome.Unresolved? <==> net.resolve(target).None?
    ensures outcome.Unresolved? ==> trace == []
    ensures outcome.Completed? ==>
      && trace == BatchedTrace(Interval(startPort, endPort), Cap(threads))
      && Launched(trace) == Interval(startPort, endPort)
      && Joined(trace) == Launched(trace)
      && Peak(trace) <= Cap(threads)
      && outcome.listing == MakeListing(Collect(ScanProbe(net, target), Interval(startPort, endPort)))
  {
    if net.resolve(target).None? {
      return Unresolved, [];
    }
    var recorded;
    recorded, trace := Dispatch(ScanProbe(net, target), startPort, endPort, threads);
    outcome := Completed(MakeListing(recorded));
  }
}

=== FILE: equivalence.dfy ===
/** How the threaded scanner relates to the sequential one: for the same
    oracle and ports, the batched dispatcher records exactly the ports the
    one-at-a-time scan finds open, whatever the batch size, and lists them
    in the same ascending order. Both scanners read the same oracle, so the
    comparison holds when they connect with the same timeout: the basic
    scanner's fixed one second, which is the threaded one's default `-t 1`. */
module Equivalence {
  import opened Basics
  import opened Network
  import opened Banner
  import opened Prober
  import opened Ports
  import opened Report
  import opened Dispatcher
  import opened BasicScan
  import opened PortSpec
  import opened Numerals

  /** The port numbers of a list of entries, in order. */
  function PortsOf(entries: seq<OpenPort>): (ports: seq<int>)
    ensures |ports| == |entries|
    ensures forall i :: 0 <= i < |entries| ==> ports[i] == entries[i].port
  {
    seq(|entries|, i requires 0 <= i < |entries| => entries[i].port)
  }

  /** The port numbers of two lists run one after the other. */
  lemma PortsOfAppend(a: seq<OpenPort>, b: seq<OpenPort>)
    ensures PortsOf(a + b) == PortsOf(a) + PortsOf(b)
  {
  }

  /** The port number a probe records, for any probe that records the port
      it was given. */
  lemma RecordedPortOf(probe: Probe, port: int)
    requires probe(port).Some? ==> probe(port).value.port == port
    ensures PortsOf(Recorded(probe, port)) == if probe(port).Some? then [port] else []
  {
  }

  /** What one probe records, reduced to its port number, is what the basic
      scanner appends for that port. */
  lemma RecordedPort(net: Net, target: string, port: int)
    ensures PortsOf(Recorded(ScanProbe(net, target), port))
      == if ScanPort(net, target, port) then [port] else []
  {
    var probe := ScanProbe(net, target);
    assert probe(port) == ProbePort(net, target, port);
    RecordedPortOf(probe, port);
  }

  /** Port by port, the threaded scanner's records are the basic scanner's
      open ports. */
  lemma {:induction false} BatchedMatchesSequential(net: Net, target: string, ports: seq<int>)
    ensures PortsOf(Collect(ScanProbe(net, target), ports)) == OpenPortsIn(net, target, ports)
  {
    if |ports| > 0 {
      var init := ports[..|ports| - 1];
      var last := ports[|ports| - 1];
      BatchedMatchesSequential(net, target, init);
      RecordedPort(net, target, last);
      PortsOfAppend(Collect(ScanProbe(net, target), init), Recorded(ScanProbe(net, target), last));
    }
  }

  /** Every entry a probe records is the probe's own answer for that entry's
      port. */
  lemma {:induction false} RecordsAreAnswers(probe: Probe, ports: seq<int>)
    requires forall p :: probe(p).Some? ==> probe(p).value.port == p
    ensures forall e :: e in Collect(probe, ports) ==> probe(e.port) == Some(e)
  {
    if |ports| > 0 {
      RecordsAreAnswers(probe, ports[..|ports| - 1]);
    }
  }

  /** Every record carries the banner grabbed on that port's connection. */
  lemma RecordsCarryBanners(net: Net, target: string, ports: seq<int>)
    ensures forall e :: e in Collect(ScanProbe(net, target), ports) ==>
      e.banner == GrabBanner(net, target, e.port)
  {
    var probe := ScanProbe(net, target);
    forall p ensures probe(p).Some? ==> probe(p).value.port == p {
      assert probe(p) == ProbePort(net, target, p);
    }
    RecordsAreAnswers(probe, ports);
    forall e | e in Collect(probe, ports) ensures e.banner == GrabBanner(net, target, e.port) {
      assert probe(e.port) == ProbePort(net, target, e.port);
      ProbersAgree(net, target, e.port);
    }
  }

  /** The records of a scan of `lo..hi` are the open ports of the interval,
      each once, in ascending port order. */
  lemma ScanRecordsOpenPorts(net: Net, target: string, lo: int, hi: int)
    ensures var records := Collect(ScanProbe(net, target), Interval(lo, hi));
      && SortedByPort(records)
      && DistinctPorts(records)
      && forall p :: p in PortsOf(records) <==> lo <= p <= hi && Accepts(net.connect(target, p))
  {
    var records := Collect(ScanProbe(net, target), Interval(lo, hi));
    IntervalFacts(lo, hi);
    BatchedMatchesSequential(net, target, Interval(lo, hi));
    OpenPortsInSpec(net, target, Interval(lo, hi));
    var ports := PortsOf(records);
    assert forall i, j :: 0 <= i < j < |records| ==> records[i].port == ports[i] < ports[j] == records[j].port;
  }

  /** The listing of entries already in port order keeps their order. */
  lemma ListingOfSorted(records: seq<OpenPort>)
    requires SortedByPort(records)
    ensures MakeListing(records).Found? ==>
      MakeListing(records).rows == seq(|records|, i requires 0 <= i < |records| => ToRow(records[i]))
  {
    SortKeepsSorted(records);
  }

  /** A scan records nothing exactly when no port of the interval accepts. */
  lemma NothingRecorded(net: Net, target: string, lo: int, hi: int)
    ensures |Collect(ScanProbe(net, target), Interval(lo, hi))| == 0
      <==> forall p :: lo <= p <= hi ==> !Accepts(net.connect(target, p))
  {
    var records := Collect(ScanProbe(net, target), Interval(lo, hi));
    ScanRecordsOpenPorts(net, target, lo, hi);
    if |records| > 0 {
      assert records[0].port in PortsOf(records);
    }
  }

  /** The printed listing of a completed scan: "no open ports" exactly when no
      port of the interval accepts, and otherwise the records as rows in the
      order they were made, since the dispatcher already records in port
      order. */
  lemma ScanListing(net: Net, target: string, lo: int, hi: int)
    ensures var records := Collect(ScanProbe(net, target), Interval(lo, hi));
      var listing := MakeListing(records);
      && (listing.NoOpenPorts? <==> forall p :: lo <= p <= hi ==> !Accepts(net.connect(target, p)))
      && (listing.Found? ==> listing.rows == seq(|records|, i requires 0 <= i < |records| => ToRow(records[i])))
  {
    var records := Collect(ScanProbe(net, target), Interval(lo, hi));
    NothingRecorded(net, target, lo, hi);
    ScanRecordsOpenPorts(net, target, lo, hi);
    ListingOfSorted(records);
  }

  /** A net whose only listener is an SSH server on port 22. */
  function SshOnly(): Net
  {
    Net(
      _ => Some("192.0.2.7"),
      (_, port) => if port == 22 then Code(0) else Code(111),
      (_, _, _) => Received("SSH-2.0-OpenSSH"))
  }

  /** `-p 20-25` is the interval from 20 to 25. */
  lemma SshSpec()
    ensures ParseSpec("20-25") == Ok(PortRange(20, 25))
  {
    assert Show(20) == "20" && Show(25) == "25";
    assert Show(20) + "-" + Show(25) == "20-25";
    RangeRoundTrip(20, 25);
  }

  /** Probing 20..22 one after the other, when only port 22 answers. */
  lemma CollectUpToAnswer(probe: Probe, e: OpenPort)
    requires probe(20) == None && probe(21) == None && probe(22) == Some(e)
    ensures Collect(probe, [20, 21, 22]) == [e]
  {
    var none: seq<int> := [];
    CollectSnoc(probe, none, 20);
    assert none + [20] == [20];
    CollectSnoc(probe, [20], 21);
    assert [20] + [21] == [20, 21];
    CollectSnoc(probe, [20, 21], 22);
    assert [20, 21] + [22] == [20, 21, 22];
  }

  /** Probing 23..25 after that adds nothing when none of them answers. */
  lemma CollectPastAnswer(probe: Probe, e: OpenPort)
    requires Collect(probe, [20, 21, 22]) == [e]
    requires probe(23) == None && probe(24) == None && probe(25) == None
    ensures Collect(probe, [20, 21, 22, 23, 24, 25]) == [e]
  {
    CollectSnoc(probe, [20, 21, 22], 23);
    assert [20, 21, 22] + [23] == [20, 21, 22, 23];
    CollectSnoc(probe, [20, 21, 22, 23], 24);
    assert [20, 21, 22, 23] + [24] == [20, 21, 22, 23, 24];
    CollectSnoc(probe, [20, 21, 22, 23, 24], 25);
    assert [20, 21, 22, 23, 24] + [25] == [20, 21, 22, 23, 24, 25];
  }

  /** Probing 20..25 one after the other, when only port 22 answers. */
  lemma CollectOnlyOne(probe: Probe, e: OpenPort)
    requires probe(22) == Some(e)
    requires probe(20) == None && probe(21) == None
    requires probe(23) == None && probe(24) == None && probe(25) == None
    ensures Collect(probe, Interval(20, 25)) == [e]
  {
    assert Interval(20, 25) == [20, 21, 22, 23, 24, 25];
    CollectUpToAnswer(probe, e);
    CollectPastAnswer(probe, e);
  }

  /** Only the SSH port is recorded, with the banner grabbed from it. */
  lemma SshRecords()
    ensures Collect(ScanProbe(SshOnly(), "testhost"), Interval(20, 25))
      == [OpenPort(22, GrabBanner(SshOnly(), "testhost", 22))]
  {
    var probe := ScanProbe(SshOnly(), "testhost");
    forall p | p in {20, 21, 23, 24, 25} ensures probe(p) == None {
      assert probe(p) == ProbePort(SshOnly(), "testhost", p);
    }
    assert probe(22) == ProbePort(SshOnly(), "testhost", 22);
    CollectOnlyOne(probe, OpenPort(22, GrabBanner(SshOnly(), "testhost", 22)));
  }

  /** The SSH server's answer is shown parenthesised. */
  lemma SshBanner()
    ensures GrabBanner(SshOnly(), "testhost", 22) == "(SSH-2.0-OpenSSH)"
  {
    assert "(" + "SSH-2.0-OpenSSH" + ")" == "(SSH-2.0-OpenSSH)";
    ShortAnswerBanner(SshOnly(), "testhost", 22, "SSH-2.0-OpenSSH");
  }

  /** An entry for port 22 is listed under the `SSH` label. */
  lemma ListingOfSsh(records: seq<OpenPort>, banner: string)
    requires records == [OpenPort(22, banner)]
    ensures MakeListing(records) == Found(1, [Row(22, "SSH", banner)])
  {
    ListingOfOne(OpenPort(22, banner));
  }

  /** Scanning `-p 20-25` against a host with only SSH open on port 22 lists
      that one port as `22: SSH (SSH-2.0-OpenSSH)`. */
  lemma SshScenario()
    ensures ParseSpec("20-25") == Ok(PortRange(20, 25))
    ensures MakeListing(Collect(ScanProbe(SshOnly(), "testhost"), Interval(20, 25)))
      == Found(1, [Row(22, "SSH", "(SSH-2.0-OpenSSH)")])
  {
    SshSpec();
    SshRecords();
    SshBanner();
    ListingOfSsh(Collect(ScanProbe(SshOnly(), "testhost"), Interval(20, 25)), "(SSH-2.0-OpenSSH)");
  }

  /** One open port gives a one-row listing. */
  lemma ListingOfOne(e: OpenPort)
    ensures MakeListing([e]) == Found(1, [ToRow(e)])
  {
    assert SortByPort([e]) == [e];
  }
}

=== FILE: fields.dfy ===
/** Python's `str.split(sep)` for a one-character separator, and its inverse
    `sep.join(fields)`. */
module Fields {

  /** Number of occurrences of `c` in `s`. */
  function Count(s: string, c: char): (n: nat)
    ensures n > 0 <==> c in s
  {
    if |s| == 0 then 0 else (if s[0] == c then 1 else 0) + Count(s[1..], c)
  }

  /** `s.split(sep)`: the maximal separator-free pieces of `s`, in order.
      An empty string yields one empty field, as in Python. */
  function Split(s: string, sep: char): (fields: seq<string>)
    ensures |fields| == Count(s, sep) + 1
    ensures forall i :: 0 <= i < |fields| ==> sep !in fields[i]
  {
    if |s| == 0 then [""]
    else
      var rest := Split(s[1..], sep);
      if s[0] == sep then [""] + rest
      else [[s[0]] + rest[0]] + rest[1..]
  }

  /** `sep.join(fields)`. */
  function Join(fields: seq<string>, sep: char): string
    requires |fields| >= 1
  {
    if |fields| == 1 then fields[0] else fields[0] + [sep] + Join(fields[1..], sep)
  }

  /** Every character of a joined string is the separator or comes from a field. */
  lemma {:induction false} JoinChars(fields: seq<string>, sep: char, c: char)
    requires |fields| >= 1
    requires c in Join(fields, sep)
    ensures c == sep || exists i :: 0 <= i < |fields| && c in fields[i]
  {
    if |fields| > 1 {
      var tail := Join(fields[1..], sep);
      assert Join(fields, sep) == fields[0] + [sep] + tail;
      if c !in fields[0] && c != sep {
        assert c in tail;
        JoinChars(fields[1..], sep, c);
        var i :| 0 <= i < |fields[1..]| && c in fields[1..][i];
        assert c in fields[i + 1];
      }
    }
  }

  /** A separator-free string is a single field. */
  lemma {:induction false} SplitWithoutSeparator(s: string, sep: char)
    requires sep !in s
    ensures Split(s, sep) == [s]
  {
    if |s| > 0 {
      assert sep !in s[1..] by {
        forall k | 0 <= k < |s[1..]| ensures s[1..][k] != sep {
          assert s[1..][k] == s[k + 1];
        }
      }
      SplitWithoutSeparator(s[1..], sep);
      assert [s[0]] + s[1..] == s;
    }
  }

  /** Splitting peels off a leading separator-free field. */
  lemma {:induction false} SplitAfterField(x: string, sep: char, y: string)
    requires sep !in x
    ensures Split(x + [sep] + y, sep) == [x] + Split(y, sep)
  {
    var s := x + [sep] + y;
    if |x| == 0 {
      assert s[1..] == y;
    } else {
      assert s[1..] == x[1..] + [sep] + y;
      assert sep !in x[1..] by {
        forall k | 0 <= k < |x[1..]| ensures x[1..][k] != sep {
          assert x[1..][k] == x[k + 1];
        }
      }
      SplitAfterField(x[1..], sep, y);
      assert [x[0]] + x[1..] == x;
    }
  }

  /** Joining the fields of a split restores the original string. */
  lemma {:induction false} JoinSplit(s: string, sep: char)
    ensures Join(Split(s, sep), sep) == s
  {
    if |s| > 0 {
      var rest := Split(s[1..], sep);
      JoinSplit(s[1..], sep);
      if s[0] == sep {
        assert Split(s, sep) == [""] + rest;
        assert ([""] + rest)[1..] == rest;
        assert Join([""] + rest, sep) == "" + [sep] + Join(rest, sep);
        assert [s[0]] + s[1..] == s;
      } else {
        var fields := [[s[0]] + rest[0]] + rest[1..];
        assert Split(s, sep) == fields;
        if |rest| == 1 {
          assert Join(fields, sep) == [s[0]] + rest[0];
        } else {
          assert fields[1..] == rest[1..];
          assert Join(fields, sep) == [s[0]] + rest[0] + [sep] + Join(rest[1..], sep);
          assert Join(rest, sep) == rest[0] + [sep] + Join(rest[1..], sep);
        }
        assert [s[0]] + s[1..] == s;
      }
    }
  }

  /** Splitting a join of separator-free fields gives back the fields. */
  lemma {:induction false} SplitJoin(fields: seq<string>, sep: char)
    requires |fields| >= 1
    requires forall i :: 0 <= i < |fields| ==> sep !in fields[i]
    ensures Split(Join(fields, sep), sep) == fields
  {
    if |fields| == 1 {
      SplitWithoutSeparator(fields[0], sep);
    } else {
      SplitJoin(fields[1..], sep);
      SplitAfterField(fields[0], sep, Join(fields[1..], sep));
      assert [fields[0]] + fields[1..] == fields;
    }
  }
}

=== FILE: network.dfy ===
/** The network, replaced by an oracle. Everything the scanner learns from
    sockets and the resolver comes through these three functions, so the
    model is deterministic for a fixed oracle. */
module Network {
  import opened Basics

  /** The two kinds of exception the source tells apart: `socket.gaierror`
      (the host name did not resolve) and any other exception. */
  datatype SocketError = AddressError | OtherError

  /** What creating a socket and calling `connect_ex` gives: the error number
      it returns (0 means connected), or an exception it raised. */
  datatype ConnectResult = Code(errno: int) | Raised(error: SocketError)

  /** What sending the probe payload and one `recv` give: the received text
      (already decoded), or an exception from either call. */
  datatype Reply = Received(text: string) | Failed

  datatype Net = Net(
    resolve: string -> Option<string>,
    connect: (string, int) -> ConnectResult,
    exchange: (string, int, string) -> Reply)

  /** A connection attempt succeeded: `connect_ex` returned 0. */
  predicate Accepts(r: ConnectResult)
  {
    r.Code? && r.errno == 0
  }
}

=== FILE: numerals.dfy ===
/** Decimal numerals: the digit strings Python's `int()` turns into port
    numbers, and the decimal rendering `str(n)` that produces them. */
module Numerals {
  predicate IsDigit(c: char)
  {
    '0' <= c <= '9'
  }

  /** A non-empty string of ASCII decimal digits. */
  predicate IsNumeral(s: string)
  {
    |s| > 0 && forall i :: 0 <= i < |s| ==> IsDigit(s[i])
  }

  /** CPython's default cap on the number of digits `int()` converts from a
      string (`sys.int_info.default_max_str_digits`); leading zeros count. */
  const MaxStrDigits: nat := 4300

  /** The length of the run of digits at the front of `s`: the digits `int()`
      counts, and checks against the cap, before it looks at the rest. */
  function DigitRun(s: string): (n: nat)
    ensures n <= |s|
    ensures forall i :: 0 <= i < n ==> IsDigit(s[i])
    ensures n < |s| ==> !IsDigit(s[n])
  {
    if |s| == 0 || !IsDigit(s[0]) then 0 else 1 + DigitRun(s[1..])
  }

  /** A numeral `int()` converts: not longer than the digit cap. */
  predicate Convertible(s: string)
  {
    IsNumeral(s) && |s| <= MaxStrDigits
  }

  function DigitValue(c: char): (d: nat)
    requires IsDigit(c)
    ensures d < 10
  {
    (c as int) - ('0' as int)
  }

  function DigitChar(d: nat): (c: char)
    requires d < 10
    ensures IsDigit(c) && DigitValue(c) == d
  {
    ('0' as int + d) as char
  }

  /** The value of a digit string, most significant digit first. */
  function ValueOf(s: string): nat
    requires forall i :: 0 <= i < |s| ==> IsDigit(s[i])
  {
    if |s| == 0 then 0 else 10 * ValueOf(s[..|s| - 1]) + DigitValue(s[|s| - 1])
  }

  /** `str(n)` for a non-negative integer: no leading zeros. */
  function Show(n: nat): (s: string)
    ensures IsNumeral(s)
    ensures |s| > 1 ==> s[0] != '0'
  {
    if n < 10 then [DigitChar(n)] else Show(n / 10) + [DigitChar(n % 10)]
  }

  /** A numeral as `str` prints it: no superfluous leading zero. */
  predicate IsCanonical(s: string)
  {
    IsNumeral(s) && (|s| > 1 ==> s[0] != '0')
  }

  /** Reading back a rendered number gives the number. */
  lemma {:induction false} ParseShow(n: nat)
    ensures ValueOf(Show(n)) == n
  {
    if n >= 10 {
      ParseShow(n / 10);
      var s := Show(n);
      assert s[..|s| - 1] == Show(n / 10);
      assert ValueOf(Show(n / 10)) == n / 10;
      assert ValueOf(s) == 10 * (n / 10) + n % 10;
    }
  }

  /** A numeral whose first digit is not zero has a value at least that digit. */
  lemma {:induction false} LeadingDigitBound(s: string)
    requires IsNumeral(s)
    ensures ValueOf(s) >= DigitValue(s[0])
  {
    if |s| > 1 {
      var init := s[..|s| - 1];
      assert init[0] == s[0];
      LeadingDigitBound(init);
    }
  }

  /** Rendering the value of a canonical numeral gives the numeral back. */
  lemma {:induction false} ShowParse(s: string)
    requires IsCanonical(s)
    ensures Show(ValueOf(s)) == s
  {
    if |s| > 1 {
      var init := s[..|s| - 1];
      assert init[0] == s[0];
      assert IsCanonical(init);
      LeadingDigitBound(init);
      ShowParse(init);
      var v := ValueOf(s);
      assert v / 10 == ValueOf(init) && v % 10 == DigitValue(s[|s| - 1]);
      assert init + [s[|s| - 1]] == s;
    } else {
      assert [DigitChar(DigitValue(s[0]))] == s;
    }
  }

  /** A numeral never contains a non-digit such as a separator. */
  lemma NumeralHasNoSeparator(s: string, c: char)
    requires IsNumeral(s)
    requires !IsDigit(c)
    ensures c !in s
  {
  }
}

=== FILE: port_spec.dfy ===
/** The `-p/--ports` argument: `"a-b"`, `"p1,p2,..."` or `"p"`, turned into
    the inclusive interval `(start_port, end_port)` the scanner walks. */
module PortSpec {
  import opened Basics
  import opened Fields
  import opened Numerals

  datatype PortRange = PortRange(startPort: int, endPort: int)

  /** The `ValueError`s the conversion can raise: a field `int()` rejects
      as a literal, a field whose leading digits exceed CPython's digit cap,
      or a range with more than two fields to unpack. */
  datatype SpecError = InvalidLiteral(field: string) | DigitLimit(field: string) | TooManyValues

  /** `int(field)`: the leading digits are counted and checked against the
      cap first, and only then is the whole field required to be a numeral. */
  function IntOf(field: string): (r: Result<nat, SpecError>)
    ensures r.Ok? <==> Convertible(field)
    ensures r.Ok? ==> r.value == ValueOf(field)
    ensures r == Err(DigitLimit(field)) <==> DigitRun(field) > MaxStrDigits
    ensures r.Err? ==> r == Err(DigitLimit(field)) || r == Err(InvalidLiteral(field))
  {
    if DigitRun(field) > MaxStrDigits then Err(DigitLimit(field))
    else if IsNumeral(field) then Ok(ValueOf(field))
    else Err(InvalidLiteral(field))
  }

  /** `start_port, end_port = map(int, fields)`: Python converts the first two
      fields, then pulls (and converts) a third one if present before it
      complains that there are too many values to unpack. */
  function UnpackPair(fields: seq<string>): (r: Result<PortRange, SpecError>)
    requires |fields| >= 2
    ensures r.Ok? <==> |fields| == 2 && Convertible(fields[0]) && Convertible(fields[1])
    ensures r.Ok? ==> r.value.startPort == ValueOf(fields[0]) && r.value.endPort == ValueOf(fields[1])
    ensures r == Err(TooManyValues) ==> |fields| > 2
    ensures !Convertible(fields[0]) ==> r == Err(IntOf(fields[0]).error)
    ensures Convertible(fields[0]) && !Convertible(fields[1]) ==> r == Err(IntOf(fields[1]).error)
    ensures |fields| > 2 && Convertible(fields[0]) && Convertible(fields[1]) ==>
      r == if Convertible(fields[2]) then Err(TooManyValues) else Err(IntOf(fields[2]).error)
  {
    var first := IntOf(fields[0]);
    var second := IntOf(fields[1]);
    if first.Err? then Err(first.error)
    else if second.Err? then Err(second.error)
    else if |fields| > 2 then
      (var third := IntOf(fields[2]); if third.Err? then Err(third.error) else Err(TooManyValues))
    else Ok(PortRange(first.value, second.value))
  }

  /** `list(map(int, fields))`: the first field `int()` rejects raises. */
  function ToInts(fields: seq<string>): (r: Result<seq<nat>, SpecError>)
    ensures r.Ok? <==> forall i :: 0 <= i < |fields| ==> Convertible(fields[i])
    ensures r.Ok? ==> |r.value| == |fields|
    ensures r.Ok? ==> forall i :: 0 <= i < |fields| ==> Convertible(fields[i]) && r.value[i] == ValueOf(fields[i])
    ensures r.Err? ==> exists i ::
      && 0 <= i < |fields|
      && !Convertible(fields[i])
      && r.error == IntOf(fields[i]).error
      && (forall k :: 0 <= k < i ==> Convertible(fields[k]))
  {
    if |fields| == 0 then Ok([])
    else
      var head := IntOf(fields[0]);
      if head.Err? then Err(head.error)
      else
        match ToInts(fields[1..])
        case Err(e) => Err(e)
        case Ok(vs) => Ok([head.value] + vs)
  }

  /** `min(xs)`. */
  function MinOf(xs: seq<nat>): (m: nat)
    requires |xs| > 0
    ensures m in xs
    ensures forall i :: 0 <= i < |xs| ==> m <= xs[i]
  {
    if |xs| == 1 then xs[0] else Min(xs[0], MinOf(xs[1..]))
  }

  /** `max(xs)`. */
  function MaxOf(xs: seq<nat>): (m: nat)
    requires |xs| > 0
    ensures m in xs
    ensures forall i :: 0 <= i < |xs| ==> xs[i] <= m
  {
    if |xs| == 1 then xs[0] else Max(xs[0], MaxOf(xs[1..]))
  }

  /** The fields of a range spec `"a-b"`. */
  function RangeFields(spec: string): seq<string>
  {
    Split(spec, '-')
  }

  /** The fields of a list spec `"p1,p2,..."`. */
  function ListFields(spec: string): seq<string>
  {
    Split(spec, ',')
  }

  /** The port-range parsing of `main`. A `'-'` anywhere makes the argument a
      range, even when it also holds a `','`; otherwise a `','` makes it a list
      that collapses to its least and greatest element; otherwise it is one port. */
  function ParseSpec(spec: string): (r: Result<PortRange, SpecError>)
    ensures '-' in spec ==>
      && |RangeFields(spec)| >= 2
      && (r.Ok? <==> |RangeFields(spec)| == 2
                     && Convertible(RangeFields(spec)[0]) && Convertible(RangeFields(spec)[1]))
      && (r.Ok? ==> r.value == PortRange(ValueOf(RangeFields(spec)[0]), ValueOf(RangeFields(spec)[1])))
    ensures '-' !in spec && ',' in spec ==>
      && (r.Err? ==> exists i :: 0 <= i < |ListFields(spec)| && !Convertible(ListFields(spec)[i]))
      && (r.Ok? ==> r.value.startPort <= r.value.endPort)
      && (r.Ok? ==> forall i :: 0 <= i < |ListFields(spec)| ==>
            Convertible(ListFields(spec)[i])
            && r.value.startPort <= ValueOf(ListFields(spec)[i]) <= r.value.endPort)
      && (r.Ok? ==> exists i ::
            0 <= i < |ListFields(spec)| && Convertible(ListFields(spec)[i])
            && ValueOf(ListFields(spec)[i]) == r.value.startPort)
      && (r.Ok? ==> exists i ::
            0 <= i < |ListFields(spec)| && Convertible(ListFields(spec)[i])
            && ValueOf(ListFields(spec)[i]) == r.value.endPort)
    ensures '-' !in spec && ',' !in spec ==>
      (r.Ok? <==> Convertible(spec))
      && (r.Ok? ==> r.value.startPort == r.value.endPort == ValueOf(spec))
      && (r.Err? ==> r.error == IntOf(spec).error)
  {
    if '-' in spec then
      UnpackPair(RangeFields(spec))
    else if ',' in spec then
      var ports := ToInts(ListFields(spec));
      if ports.Err? then Err(ports.error)
      else Ok(PortRange(MinOf(ports.value), MaxOf(ports.value)))
    else
      var port := IntOf(spec);
      if port.Err? then Err(port.error) else Ok(PortRange(port.value, port.value))
  }

  /** A spec holding both `'-'` and `','` is read as a range, and so always
      fails: the comma ends up inside one of the two range fields. */
  lemma MixedSpecFails(spec: string)
    requires '-' in spec && ',' in spec
    ensures ParseSpec(spec).Err?
  {
    var f := Split(spec, '-');
    if ParseSpec(spec).Ok? {
      JoinSplit(spec, '-');
      JoinChars(f, '-', ',');
    }
  }

  /** `"a-b"` reads back as the interval from `a` to `b`, for numbers whose
      renderings fit under the digit cap. */
  lemma RangeRoundTrip(a: nat, b: nat)
    requires |Show(a)| <= MaxStrDigits && |Show(b)| <= MaxStrDigits
    ensures ParseSpec(Show(a) + "-" + Show(b)) == Ok(PortRange(a, b))
  {
    var spec := Show(a) + "-" + Show(b);
    assert spec == Show(a) + ['-'] + Show(b);
    assert spec[|Show(a)|] == '-';
    assert '-' !in Show(a) && '-' !in Show(b) by {
      NumeralHasNoSeparator(Show(a), '-');
      NumeralHasNoSeparator(Show(b), '-');
    }
    SplitAfterField(Show(a), '-', Show(b));
    SplitWithoutSeparator(Show(b), '-');
    ParseShow(a);
    ParseShow(b);
  }

  /** A single port `"p"` reads back as the one-port interval `p..p`, for a
      number whose rendering fits under the digit cap. */
  lemma SingleRoundTrip(p: nat)
    requires |Show(p)| <= MaxStrDigits
    ensures ParseSpec(Show(p)) == Ok(PortRange(p, p))
  {
    NumeralHasNoSeparator(Show(p), '-');
    NumeralHasNoSeparator(Show(p), ',');
    ParseShow(p);
  }

  /** The decimal renderings of a list of ports. */
  function Rendered(ports: seq<nat>): (fields: seq<string>)
    ensures |fields| == |ports|
    ensures forall i :: 0 <= i < |ports| ==> fields[i] == Show(ports[i])
  {
    seq(|ports|, i requires 0 <= i < |ports| => Show(ports[i]))
  }

  /** A comma list `"p1,p2,..."` of two or more ports reads back as the
      interval from its least to its greatest port, when every rendering
      fits under the digit cap. */
  lemma ListRoundTrip(ports: seq<nat>)
    requires |ports| >= 2
    requires forall i :: 0 <= i < |ports| ==> |Show(ports[i])| <= MaxStrDigits
    ensures ParseSpec(Join(Rendered(ports), ',')) == Ok(PortRange(MinOf(ports), MaxOf(ports)))
  {
    var fields := Rendered(ports);
    var spec := Join(fields, ',');
    forall i | 0 <= i < |fields|
      ensures ',' !in fields[i] && '-' !in fields[i] && Convertible(fields[i]) && ValueOf(fields[i]) == ports[i]
    {
      NumeralHasNoSeparator(fields[i], ',');
      NumeralHasNoSeparator(fields[i], '-');
      ParseShow(ports[i]);
    }
    if '-' in spec {
      JoinChars(fields, ',', '-');
      assert false;
    }
    assert spec == fields[0] + [','] + Join(fields[1..], ',');
    assert spec[|fields[0]|] == ',';
    SplitJoin(fields, ',');
    var vs := ToInts(fields);
    assert vs.Ok? && vs.value == ports;
  }

  /** A lone numeral longer than the digit cap is refused, however small its
      value: `int()` counts leading zeros against the cap too. */
  lemma OverlongPortFails(spec: string)
    requires IsNumeral(spec) && |spec| > MaxStrDigits
    ensures ParseSpec(spec) == Err(DigitLimit(spec))
  {
    NumeralHasNoSeparator(spec, '-');
    NumeralHasNoSeparator(spec, ',');
  }

  /** The same holds for either end of a range `"a-b"`. */
  lemma OverlongRangeStartFails(first: string, second: string)
    requires IsNumeral(first) && |first| > MaxStrDigits
    ensures ParseSpec(first + "-" + second) == Err(DigitLimit(first))
  {
    var spec := first + "-" + second;
    assert spec == first + ['-'] + second;
    assert spec[|first|] == '-';
    NumeralHasNoSeparator(first, '-');
    SplitAfterField(first, '-', second);
  }
}

=== FILE: ports.dfy ===
/** Port intervals as Python's `range(start, end + 1)` enumerates them. */
module Ports {

  /** `list(range(lo, hi + 1))`: empty when `lo > hi`. */
  function Interval(lo: int, hi: int): (r: seq<int>)
    ensures |r| == if lo <= hi then hi - lo + 1 else 0
    ensures forall i :: 0 <= i < |r| ==> r[i] == lo + i
    decreases hi - lo
  {
    if lo > hi then [] else Interval(lo, hi - 1) + [hi]
  }

  predicate StrictlyIncreasing(xs: seq<int>)
  {
    forall i, j :: 0 <= i < j < |xs| ==> xs[i] < xs[j]
  }

  /** An interval holds each of its ports once, in ascending order. */
  lemma IntervalFacts(lo: int, hi: int)
    ensures StrictlyIncreasing(Interval(lo, hi))
    ensures forall p :: p in Interval(lo, hi) <==> lo <= p <= hi
  {
    var r := Interval(lo, hi);
    forall p | lo <= p <= hi ensures p in r {
      assert r[p - lo] == p;
    }
  }

  /** Appending a value above every element keeps a sequence increasing. */
  lemma IncreasingAppend(xs: seq<int>, x: int)
    requires StrictlyIncreasing(xs)
    requires forall y :: y in xs ==> y < x
    ensures StrictlyIncreasing(xs + [x])
  {
    var ys := xs + [x];
    forall i, j | 0 <= i < j < |ys| ensures ys[i] < ys[j] {
      assert ys[i] == xs[i] && ys[i] in xs;
    }
  }
}

=== FILE: prober.dfy ===
/** The per-port outcome rule of both scanners: a port is open exactly when
    `connect_ex` returns 0, and every exception means "not open". */
module Prober {
  import opened Basics
  import opened Network
  import opened Banner

  /** An entry of `PortScanner.open_ports`. */
  datatype OpenPort = OpenPort(port: int, banner: string)

  /** `PortScanner.scan_port`: the entry the probe appends, if any. */
  function ProbePort(net: Net, target: string, port: int): (r: Option<OpenPort>)
    ensures r.Some? <==> Accepts(net.connect(target, port))
    ensures r.Some? ==> r.value.port == port
  {
    match net.connect(target, port)
    case Code(errno) =>
      if errno == 0 then Some(OpenPort(port, GrabBanner(net, target, port))) else None
    case Raised(_) => None
  }

  /** `scan_port` of the basic scanner. */
  function ScanPort(net: Net, target: string, port: int): (open: bool)
    ensures open <==> Accepts(net.connect(target, port))
  {
    match net.connect(target, port)
    case Code(errno) => errno == 0
    case Raised(_) => false
  }

  /** The two scanners agree on which ports are open; an open port's entry
      carries the banner `grab_banner` produced on that connection. */
  lemma ProbersAgree(net: Net, target: string, port: int)
    ensures ProbePort(net, target, port).Some? <==> ScanPort(net, target, port)
    ensures ProbePort(net, target, port).Some? ==>
      ProbePort(net, target, port).value == OpenPort(port, GrabBanner(net, target, port))
  {
  }

  /** An exception, including a failed name resolution inside the probe,
      never yields an open port. */
  lemma ExceptionMeansClosed(net: Net, target: string, port: int)
    requires net.connect(target, port).Raised?
    ensures ProbePort(net, target, port) == None
    ensures !ScanPort(net, target, port)
  {
  }
}

=== FILE: report.dfy ===
/** The result listing `run_scan` prints and `save_results` writes: the
    recorded open ports sorted by port number, each with its service label
    and banner, or the "no open ports" message when nothing was recorded. */
module Report {
  import opened Prober
  import opened Services

  datatype Row = Row(port: int, service: string, banner: string)

  /** `Found` carries the count printed in "Found N open ports" and the rows
      in printing order. */
  datatype Listing = NoOpenPorts | Found(count: nat, rows: seq<Row>)

  ghost predicate SortedByPort(xs: seq<OpenPort>)
  {
    forall i, j :: 0 <= i < j < |xs| ==> xs[i].port <= xs[j].port
  }

  ghost predicate DistinctPorts(xs: seq<OpenPort>)
  {
    forall i, j :: 0 <= i < j < |xs| ==> xs[i].port != xs[j].port
  }

  /** Insert `x` before the first entry with a larger or equal port. */
  function Insert(x: OpenPort, xs: seq<OpenPort>): (r: seq<OpenPort>)
    requires SortedByPort(xs)
    ensures SortedByPort(r)
    ensures multiset(r) == multiset(xs) + multiset{x}
    ensures |r| == |xs| + 1 && (r[0] == x || (|xs| > 0 && r[0] == xs[0]))
  {
    if |xs| == 0 || x.port <= xs[0].port then [x] + xs
    else
      assert xs == [xs[0]] + xs[1..];
      [xs[0]] + Insert(x, xs[1..])
  }

  /** `sorted(open_ports, key=lambda x: x['port'])`. */
  function SortByPort(xs: seq<OpenPort>): (r: seq<OpenPort>)
    ensures SortedByPort(r)
    ensures multiset(r) == multiset(xs)
    ensures |r| == |xs|
  {
    if |xs| == 0 then []
    else
      assert xs == [xs[0]] + xs[1..];
      Insert(xs[0], SortByPort(xs[1..]))
  }

  function ToRow(x: OpenPort): Row
  {
    Row(x.port, ServiceName(x.port), x.banner)
  }

  /** The entry a printed row stands for. */
  function FromRow(row: Row): OpenPort
  {
    OpenPort(row.port, row.banner)
  }

  function Listed(rows: seq<Row>): (xs: seq<OpenPort>)
    ensures |xs| == |rows|
    ensures forall i :: 0 <= i < |rows| ==> xs[i] == FromRow(rows[i])
  {
    seq(|rows|, i requires 0 <= i < |rows| => FromRow(rows[i]))
  }

  /** The listing printed after every probe has been joined. */
  function MakeListing(openPorts: seq<OpenPort>): (r: Listing)
    ensures r.NoOpenPorts? <==> |openPorts| == 0
    ensures r.Found? ==> r.count == |openPorts| == |r.rows|
    ensures r.Found? ==> multiset(Listed(r.rows)) == multiset(openPorts)
    ensures r.Found? ==> forall i, j :: 0 <= i < j < |r.rows| ==> r.rows[i].port <= r.rows[j].port
    ensures r.Found? ==> forall i :: 0 <= i < |r.rows| ==> r.rows[i].service == ServiceName(r.rows[i].port)
  {
    if |openPorts| == 0 then NoOpenPorts
    else
      var sorted := SortByPort(openPorts);
      var rows := seq(|sorted|, i requires 0 <= i < |sorted| => ToRow(sorted[i]));
      assert Listed(rows) == sorted;
      Found(|openPorts|, rows)
  }

  /** Entries already in port order are left where they are. */
  lemma {:induction false} SortKeepsSorted(xs: seq<OpenPort>)
    requires SortedByPort(xs)
    ensures SortByPort(xs) == xs
  {
    if |xs| > 0 {
      SortKeepsSorted(xs[1..]);
      assert xs == [xs[0]] + xs[1..];
    }
  }

  /** `a` with its `k`-th entry removed. */
  function Without(a: seq<OpenPort>, k: int): (r: seq<OpenPort>)
    requires 0 <= k < |a|
    ensures |r| == |a| - 1
    ensures forall m :: 0 <= m < |r| ==> r[m] == if m < k then a[m] else a[m + 1]
    ensures multiset(r) == multiset(a) - multiset{a[k]}
  {
    assert a == a[..k] + [a[k]] + a[k + 1..];
    a[..k] + a[k + 1..]
  }

  /** Removing an entry keeps the other ports distinct, and none of them
      equals the removed entry's port. */
  lemma DistinctWithout(a: seq<OpenPort>, k: int)
    requires 0 <= k < |a| && DistinctPorts(a)
    ensures DistinctPorts(Without(a, k))
    ensures forall m :: 0 <= m < |a| - 1 ==> Without(a, k)[m].port != a[k].port
  {
    var a' := Without(a, k);
    forall i, j | 0 <= i < j < |a'| ensures a'[i].port != a'[j].port {
      var i0 := if i < k then i else i + 1;
      var j0 := if j < k then j else j + 1;
      assert a'[i] == a[i0] && a'[j] == a[j0] && i0 < j0;
    }
    forall m | 0 <= m < |a'| ensures a'[m].port != a[k].port {
      var m0 := if m < k then m else m + 1;
      assert a'[m] == a[m0] && m0 != k;
    }
  }

  /** Appending an entry whose port is new keeps ports distinct. */
  lemma DistinctAppend(xs: seq<OpenPort>, e: OpenPort)
    requires DistinctPorts(xs)
    requires forall i :: 0 <= i < |xs| ==> xs[i].port != e.port
    ensures DistinctPorts(xs + [e])
  {
    var ys := xs + [e];
    forall i, j | 0 <= i < j < |ys| ensures ys[i].port != ys[j].port {
      assert ys[i] == xs[i];
    }
  }

  /** Distinct ports are a property of the multiset of entries: every
      rearrangement of distinct-port entries has distinct ports. */
  lemma {:induction false} DistinctPreserved(a: seq<OpenPort>, b: seq<OpenPort>)
    requires multiset(a) == multiset(b)
    requires DistinctPorts(a)
    ensures DistinctPorts(b)
    decreases |b|
  {
    if |b| > 0 {
      var e := b[|b| - 1];
      var b' := b[..|b| - 1];
      assert b == b' + [e];
      assert e in multiset(a);
      var k :| 0 <= k < |a| && a[k] == e;
      var a' := Without(a, k);
      assert multiset(a') == multiset(b');
      DistinctWithout(a, k);
      DistinctPreserved(a', b');
      forall i | 0 <= i < |b'|
        ensures b'[i].port != e.port
      {
        assert b'[i] in multiset(a');
      }
      DistinctAppend(b', e);
    }
  }

  lemma SortedTail(x: seq<OpenPort>)
    requires |x| > 0 && SortedByPort(x)
    ensures SortedByPort(x[1..])
  {
    forall i, j | 0 <= i < j < |x| - 1 ensures x[1..][i].port <= x[1..][j].port {
      assert x[1..][i] == x[i + 1] && x[1..][j] == x[j + 1];
    }
  }

  lemma DistinctTail(x: seq<OpenPort>)
    requires |x| > 0 && DistinctPorts(x)
    ensures DistinctPorts(x[1..])
  {
    forall i, j | 0 <= i < j < |x| - 1 ensures x[1..][i].port != x[1..][j].port {
      assert x[1..][i] == x[i + 1] && x[1..][j] == x[j + 1];
    }
  }

  /** Two port-sorted rearrangements of the same non-empty distinct-port
      entries start with the same entry. */
  lemma SameHead(x: seq<OpenPort>, y: seq<OpenPort>)
    requires |x| > 0 && |y| > 0
    requires SortedByPort(x) && SortedByPort(y)
    requires DistinctPorts(x)
    requires multiset(x) == multiset(y)
    ensures x[0] == y[0]
  {
    assert x[0] in multiset(y);
    var k :| 0 <= k < |y| && y[k] == x[0];
    assert y[0] in multiset(x);
    var m :| 0 <= m < |x| && x[m] == y[0];
    assert y[0].port <= y[k].port;
    assert x[0].port <= x[m].port;
    assert m == 0;
  }

  /** Removing equal heads leaves equal multisets. */
  lemma TailsAgree(x: seq<OpenPort>, y: seq<OpenPort>)
    requires |x| > 0 && |y| > 0 && x[0] == y[0]
    requires multiset(x) == multiset(y)
    ensures multiset(x[1..]) == multiset(y[1..])
  {
    assert x == [x[0]] + x[1..] && y == [y[0]] + y[1..];
    assert multiset(x[1..]) == multiset(x) - multiset{x[0]};
    assert multiset(y[1..]) == multiset(y) - multiset{y[0]};
  }

  /** Two port-sorted rearrangements of the same distinct-port entries are
      the same sequence. */
  lemma {:induction false} SortedUnique(x: seq<OpenPort>, y: seq<OpenPort>)
    requires SortedByPort(x) && SortedByPort(y)
    requires DistinctPorts(x)
    requires multiset(x) == multiset(y)
    ensures x == y
    decreases |x|
  {
    assert |x| == |y| by {
      assert |x| == |multiset(x)| && |y| == |multiset(y)|;
    }
    if |x| > 0 {
      SameHead(x, y);
      TailsAgree(x, y);
      SortedTail(x);
      SortedTail(y);
      DistinctTail(x);
      SortedUnique(x[1..], y[1..]);
      assert x == [x[0]] + x[1..] && y == [y[0]] + y[1..];
    }
  }

  /** The probes of a batch may finish, and append, in any order: the listing
      is the same for every arrival order of distinct-port entries. */
  lemma ListingIgnoresArrivalOrder(a: seq<OpenPort>, b: seq<OpenPort>)
    requires multiset(a) == multiset(b)
    requires DistinctPorts(a)
    ensures MakeListing(a) == MakeListing(b)
  {
    assert |a| == |multiset(a)| == |multiset(b)| == |b|;
    DistinctPreserved(a, SortByPort(a));
    SortedUnique(SortByPort(a), SortByPort(b));
  }
}

=== FILE: services.dfy ===
/** `get_service_name`: the fixed table of well-known ports shown next to
    each open port. */
module Services {

  const Unknown: string := "Unknown"

  const WellKnown: map<int, string> := map[
    21 := "FTP", 22 := "SSH", 23 := "Telnet", 25 := "SMTP", 53 := "DNS",
    80 := "HTTP", 110 := "POP3", 143 := "IMAP", 443 := "HTTPS", 993 := "IMAPS",
    995 := "POP3S", 3389 := "RDP", 5432 := "PostgreSQL", 3306 := "MySQL"]

  /** The label of a port: its table entry, or `"Unknown"` for any other port. */
  function ServiceName(port: int): (name: string)
    ensures name == Unknown <==> port !in WellKnown
    ensures port in WellKnown ==> name == WellKnown[port]
  {
    if port in WellKnown then WellKnown[port] else Unknown
  }

  /** No two ports share a label, so a known label names exactly one port. */
  lemma LabelIdentifiesPort(p: int, q: int)
    requires ServiceName(p) == ServiceName(q) != Unknown
    ensures p == q
  {
    assert p in WellKnown && q in WellKnown;
  }
}

=== FILE: whitespace.dfy ===
/** Python's `str.strip()` with no argument: remove leading and trailing
    characters for which `str.isspace()` holds. */
module Whitespace {

  /** The characters Python's `str.isspace()` accepts. */
  predicate IsSpace(c: char)
  {
    var n := c as int;
    || 0x09 <= n <= 0x0D || 0x1C <= n <= 0x20
    || n == 0x85 || n == 0xA0 || n == 0x1680
    || 0x2000 <= n <= 0x200A
    || n == 0x2028 || n == 0x2029 || n == 0x202F || n == 0x205F || n == 0x3000
  }

  /** `s[i..j]` is what stripping leaves of `s`: everything dropped is
      whitespace and the kept part neither starts nor ends with whitespace. */
  ghost predicate StrippedAt(s: string, i: int, j: int)
  {
    && 0 <= i <= j <= |s|
    && (forall k :: 0 <= k < i ==> IsSpace(s[k]))
    && (forall k :: j <= k < |s| ==> IsSpace(s[k]))
    && (i < j ==> !IsSpace(s[i]) && !IsSpace(s[j - 1]))
  }

  /** Drop leading whitespace. */
  function TrimStart(s: string): (r: string)
    ensures |r| <= |s| && r == s[|s| - |r|..]
    ensures forall k :: 0 <= k < |s| - |r| ==> IsSpace(s[k])
    ensures |r| > 0 ==> !IsSpace(r[0])
  {
    if |s| > 0 && IsSpace(s[0]) then TrimStart(s[1..]) else s
  }

  /** Drop trailing whitespace. */
  function TrimEnd(s: string): (r: string)
    ensures |r| <= |s| && r == s[..|r|]
    ensures forall k :: |r| <= k < |s| ==> IsSpace(s[k])
    ensures |r| > 0 ==> !IsSpace(r[|r| - 1])
  {
    if |s| > 0 && IsSpace(s[|s| - 1]) then TrimEnd(s[..|s| - 1]) else s
  }

  /** Dropping leading whitespace (giving `left`) and then trailing whitespace
      (giving `r`) keeps exactly the stripped part. */
  lemma TrimmedIsStripped(s: string, left: string, r: string)
    requires |left| <= |s| && left == s[|s| - |left|..]
    requires forall k :: 0 <= k < |s| - |left| ==> IsSpace(s[k])
    requires |left| > 0 ==> !IsSpace(left[0])
    requires |r| <= |left| && r == left[..|r|]
    requires forall k :: |r| <= k < |left| ==> IsSpace(left[k])
    requires |r| > 0 ==> !IsSpace(r[|r| - 1])
    ensures r == s[|s| - |left|..|s| - |left| + |r|]
    ensures StrippedAt(s, |s| - |left|, |s| - |left| + |r|)
  {
    var i := |s| - |left|;
    forall k | i + |r| <= k < |s| ensures IsSpace(s[k]) {
      assert s[k] == left[k - i];
    }
    if |r| > 0 {
      assert r[0] == left[0];
    }
  }

  /** `s.strip()`. */
  function Strip(s: string): (r: string)
    ensures exists i, j :: StrippedAt(s, i, j) && r == s[i..j]
  {
    var left := TrimStart(s);
    var r := TrimEnd(left);
    TrimmedIsStripped(s, left, r);
    r
  }

  /** The stripped part of a string is unique. */
  lemma StrippedAtUnique(s: string, i: int, j: int, i': int, j': int)
    requires StrippedAt(s, i, j) && StrippedAt(s, i', j')
    ensures s[i..j] == s[i'..j']
  {
    if i < j && i' < j' {
      assert i == i' && j == j';
    }
  }

  /** A string that neither starts nor ends with whitespace is left as it is. */
  lemma StripUnpadded(s: string)
    requires |s| > 0 ==> !IsSpace(s[0]) && !IsSpace(s[|s| - 1])
    ensures Strip(s) == s
  {
    assert StrippedAt(s, 0, |s|);
    var i, j :| StrippedAt(s, i, j) && Strip(s) == s[i..j];
    StrippedAtUnique(s, 0, |s|, i, j);
  }

  /** Stripping twice is stripping once. */
  lemma StripIdempotent(s: string)
    ensures Strip(Strip(s)) == Strip(s)
  {
    var r := Strip(s);
    var i, j :| StrippedAt(s, i, j) && r == s[i..j];
    assert StrippedAt(r, 0, |r|);
    var i', j' :| StrippedAt(r, i', j') && Strip(r) == r[i'..j'];
    StrippedAtUnique(r, 0, |r|, i', j');
  }
}
